=== FILE: README.md ===
# NetCenter, modelled in Dafny

`NetCenter` is the client-side network centre of a Cocos Creator UI framework. It wraps one
transport socket. It tracks a three-valued connection state (`Closed`, `Connecting`,
`Connected`) and spends a signed reconnect budget when the socket closes: a negative
budget retries forever, zero never retries, and a positive budget counts the retries
left. It also keeps a registry from integer command ids to ordered lists of
`(callback, target)` registrations and dispatches inbound messages to them.

The model is purely functional:

- `types.dfy` (`NetTypes`) holds the vocabulary: states, connect options, opaque
  identities for sockets, callbacks and targets, messages, `Handler` (the source's
  `EventHandler` pair), and the `Effect` trace. An effect is a transport connect, a
  transport send, a handler invocation or a log line.
- `registry.dfy` (`EventRegistry`) holds the registry as `map<int, seq<Handler>>`.
  Removal is specified by `Without`. The backwards splice loop of `offEventHandler` is
  the method `SpliceMatches`, proved equal to `Without`.
- `net_center.dfy` (`NetCenter`) holds the session record `Net` and one pure transition
  per public method and per socket notification. Each transition returns the next
  session plus its effects. It also holds `Event`, `Apply` (any one event) and `Run`
  (a trace of events).
- `lifecycle.dfy` (`NetLifecycle`) holds trace lemmas: no return to `Closed`, at most
  one transport connect, and how the reconnect budget drains.
- `dispatch.dfy` (`NetDispatch`) holds lemmas that link registry operations to later
  dispatch.
- `scenarios.dfy` (`NetScenarios`) walks through concrete sessions step by step.

Two behaviours of the code are reproduced as written, not repaired:

- No statement ever writes `Closed` back into `state`. So once `connect()` has run, the
  guard at line 43 never passes again. Every reconnect from `onClose` after the first
  `connect()` rewrites the state to `Connecting` but never reaches the transport. A close
  with a non-zero budget that arrives while the state is still `Closed` does reach it.
- Line 128 reads `this.clearEventHandler[cmd]`, a property access rather than a call. A
  list that `offEventHandler` empties therefore stays mapped. A later message for that
  command invokes nothing and is not reported as unknown.

Consequences of the code as written:

- `offEventHandler` never deletes an emptied command, so a later message for it is not
  reported as unknown (`OffLeavesEmptyList`).
- With a negative budget every close runs `connect()`, but the transport is asked at most
  once in the session's whole life (`AtMostOneConnect`, `NoConnectAfterLeavingClosed`).
- `init` resets neither the connection state nor the registry; it replaces only the
  socket, the option and the budget (`NetCenter.Init`).

## Model

| member | source | states |
|---|---|---|
| EventRegistry.Without | assets/Script/UIFrame/NetWork/NetCenter.ts:122-126 | removing a pair yields a list no longer than the original, free of that pair, and containing only original entries |
| EventRegistry.WithoutKeeps | assets/Script/UIFrame/NetWork/NetCenter.ts:122-126 | an entry survives removal exactly when it was present and differs from the removed pair in callback or target |
| EventRegistry.WithoutCounts | assets/Script/UIFrame/NetWork/NetCenter.ts:122-126 | removal drops every copy of the matching pair and keeps every other entry with its multiplicity |
| EventRegistry.WithoutAppend | assets/Script/UIFrame/NetWork/NetCenter.ts:122-126 | removal acts piecewise on a concatenation, so surviving entries keep their relative order |
| EventRegistry.WithoutAbsent | assets/Script/UIFrame/NetWork/NetCenter.ts:122-126 | removing a pair that is not registered leaves the list unchanged |
| EventRegistry.WithoutAll | assets/Script/UIFrame/NetWork/NetCenter.ts:122-127 | removing the only pair a list holds leaves it empty |
| EventRegistry.WithoutIdempotent | assets/Script/UIFrame/NetWork/NetCenter.ts:116-130 | removing the same pair twice equals removing it once |
| EventRegistry.SpliceMatches | assets/Script/UIFrame/NetWork/NetCenter.ts:122-126 | the backwards loop that splices out every entry matching both callback and target computes exactly the order-preserving removal |
| EventRegistry.Invocations | assets/Script/UIFrame/NetWork/NetCenter.ts:65-67 | dispatch invokes each entry exactly once, in list order, on its own target, with the message payload |
| EventRegistry.Dispatch | assets/Script/UIFrame/NetWork/NetCenter.ts:59-68 | an unmapped command only logs it as unknown; a mapped one (even an empty list) yields one invocation per entry, in order |
| EventRegistry.Add | assets/Script/UIFrame/NetWork/NetCenter.ts:106-111 | registration creates the key if absent, keeps the old list as a prefix, puts the new pair last, and leaves other keys alone |
| EventRegistry.Remove | assets/Script/UIFrame/NetWork/NetCenter.ts:116-130 | unregistration keeps the key set (an emptied list stays mapped), leaves an unknown command's registry as it was, and changes only that command's list |
| EventRegistry.Erase | assets/Script/UIFrame/NetWork/NetCenter.ts:131-137 | clearing unmaps the command whether or not it was mapped and keeps every other list |
| EventRegistry.EraseIdempotent | assets/Script/UIFrame/NetWork/NetCenter.ts:131-137 | clearing a command twice equals clearing it once |
| EventRegistry.AddAllAppends | assets/Script/UIFrame/NetWork/NetCenter.ts:106-111 | successive registrations accumulate in call order without deduplication and touch no other command |
| EventRegistry.DispatchAfterRegistrations | assets/Script/UIFrame/NetWork/NetCenter.ts:59-68 | after registering a list of pairs under any command that ends up mapped, dispatch on it invokes the earlier entries and then the new ones, each once, in registration order |
| EventRegistry.RemoveUndoesAdd | assets/Script/UIFrame/NetWork/NetCenter.ts:106-130 | unregistering a pair just registered, when the pair was not already registered under that command, restores the registry, except that an unmapped command is left mapped to an empty list |
| EventRegistry.RemoveAfterAdd | assets/Script/UIFrame/NetWork/NetCenter.ts:106-130 | on a mapped command, registering a pair and then unregistering it equals unregistering it alone, so every earlier copy of the pair is removed as well |
| EventRegistry.RemoveKeepsOthers | assets/Script/UIFrame/NetWork/NetCenter.ts:122-126 | an entry differing from the removed pair in either field survives |
| NetCenter.FreshSession | assets/Script/UIFrame/NetWork/NetCenter.ts:23-30 | a new session starts Closed with no socket, budget zero and no registrations; before init, connect reaches no transport but still marks it Connecting, and send is refused |
| NetCenter.Init | assets/Script/UIFrame/NetWork/NetCenter.ts:34-39 | init stores socket, option and budget, and does not reset the connection state or the registry |
| NetCenter.Connect | assets/Script/UIFrame/NetWork/NetCenter.ts:42-47 | the transport is asked to connect (once, with the stored option) exactly when a socket is present and the state is Closed; the state always becomes Connecting, even from Connected |
| NetCenter.OnConnect | assets/Script/UIFrame/NetWork/NetCenter.ts:53-57 | the connect notification makes the state Connected and changes nothing else |
| NetCenter.OnMessage | assets/Script/UIFrame/NetWork/NetCenter.ts:59-68 | a message leaves the session unchanged; an unknown command only logs, a known one invokes its registrations in order |
| NetCenter.OnClose | assets/Script/UIFrame/NetWork/NetCenter.ts:70-81 | a negative budget is kept and reconnects; zero leaves the whole session unchanged; a positive budget drops by exactly one and reconnects; the transport is reached only from Closed |
| NetCenter.OnError | assets/Script/UIFrame/NetWork/NetCenter.ts:83-85 | an error notification only logs |
| NetCenter.Send | assets/Script/UIFrame/NetWork/NetCenter.ts:89-95 | when Connected, one transport send whose answer is returned; otherwise it logs, returns false and makes no transport send |
| NetCenter.Request | assets/Script/UIFrame/NetWork/NetCenter.ts:97-101 | request appends the handler under the message's command and then behaves like send, whatever send returns |
| NetCenter.OnEventHandler | assets/Script/UIFrame/NetWork/NetCenter.ts:106-111 | registering appends exactly one pair at the end of the command's list and changes nothing else |
| NetCenter.OnceEventHandler | assets/Script/UIFrame/NetWork/NetCenter.ts:113-115 | the register-once method leaves the session unchanged |
| NetCenter.OffEventHandler | assets/Script/UIFrame/NetWork/NetCenter.ts:116-130 | unregistering removes every exact match under the command, keeps the key even when emptied, and only logs for an unknown command |
| NetCenter.ClearEventHandler | assets/Script/UIFrame/NetWork/NetCenter.ts:131-137 | clearing unmaps the command and keeps every other list and the connection fields |
| NetCenter.Apply | assets/Script/UIFrame/NetWork/NetCenter.ts:42-137 | no single operation moves the state back to Closed; each keeps the session wired, makes at most one transport connect and only from Closed, never replenishes the budget outside init, and connection events leave the registry alone |
| NetLifecycle.NeverBackToClosed | assets/Script/UIFrame/NetWork/NetCenter.ts:42-81 | once the state has left Closed, no sequence of calls or notifications brings it back |
| NetLifecycle.NoConnectAfterLeavingClosed | assets/Script/UIFrame/NetWork/NetCenter.ts:42-81 | once the state has left Closed, no trace makes a transport connect, including any number of close-driven reconnects |
| NetLifecycle.AtMostOneConnect | assets/Script/UIFrame/NetWork/NetCenter.ts:42-81 | over any trace of a wired session the transport is asked to connect at most once |
| NetLifecycle.BudgetNeverReplenished | assets/Script/UIFrame/NetWork/NetCenter.ts:70-81 | without a new init, a non-negative budget only shrinks and never goes negative, and a negative budget never changes |
| NetLifecycle.ClosesDrainBudget | assets/Script/UIFrame/NetWork/NetCenter.ts:70-81 | after k closes a budget b >= 0 equals max(0, b - k), a negative budget is unchanged, and socket and registry are untouched |
| NetLifecycle.ZeroBudgetIgnoresCloses | assets/Script/UIFrame/NetWork/NetCenter.ts:75-78 | with budget zero any number of closes leaves the session identical (a Connected session stays Connected) and makes no transport connect |
| NetLifecycle.CloseReconnectIsConnect | assets/Script/UIFrame/NetWork/NetCenter.ts:70-81 | a close with non-zero budget has exactly the effects of connect() and its state, apart from the budget |
| NetDispatch.RegistrationsAppend | assets/Script/UIFrame/NetWork/NetCenter.ts:106-111 | a run of registrations appends to the command's list in call order, has no effects, keeps the state, socket, budget and every other command's list, and adds no key but the registered command |
| NetDispatch.DispatchInRegistrationOrder | assets/Script/UIFrame/NetWork/NetCenter.ts:59-68 | after registrations under a command that ends up mapped, a message for it invokes the earlier registrations and then the new ones, each once, in registration order, with the payload |
| NetDispatch.OffLeavesEmptyList | assets/Script/UIFrame/NetWork/NetCenter.ts:127-129 | unregistering a command's only pair leaves an empty list mapped, so a later message invokes nothing and is not logged as unknown |
| NetDispatch.ClearMakesUnknown | assets/Script/UIFrame/NetWork/NetCenter.ts:131-137 | after clearing, a message for the command is logged as unknown and invokes nothing |
| NetDispatch.RequestRegistersEitherWay | assets/Script/UIFrame/NetWork/NetCenter.ts:97-101 | the registry after request does not depend on the transport's answer and equals a plain registration; the effects are those of send |
| NetDispatch.ClearIdempotent | assets/Script/UIFrame/NetWork/NetCenter.ts:131-137 | clearing a command on a session twice equals clearing it once |
| NetScenarios.ZeroBudgetSession | assets/Script/UIFrame/NetWork/NetCenter.ts:42-81 | with budget zero: one transport connect, Connected after open, and still Connected after a close with no reconnect |
| NetScenarios.BudgetTwoSession | assets/Script/UIFrame/NetWork/NetCenter.ts:70-81 | with budget two, the first two closes spend the budget and the third leaves the session Connected; the transport is asked to connect exactly once |
| NetScenarios.PingPongSession | assets/Script/UIFrame/NetWork/NetCenter.ts:59-111 | a request while Connected sends the message, and the reply invokes the callback on its target with the reply's payload |
| NetScenarios.SendBeforeOpenSession | assets/Script/UIFrame/NetWork/NetCenter.ts:89-95 | send while Connecting is refused and makes no transport send |

## Left out

- Logging: the `cc.log` calls at lines 54, 62, 76, 84, 91 and 119 are recorded only as `Log` effects with a tag. The message text is not modelled.
- The transport: `ISocket` and `IMsg` come from `./NetInterface`, which is not part of this model. A transport connect or send appears only as a recorded effect, and the result of the transport's `send` is a caller-supplied boolean.
- Connect options: `connectOption` is stored and passed through unchanged. Its fields are never inspected.
- JavaScript call semantics: `Function.call` binding, exceptions thrown by handlers, and re-entrancy are not modelled. Re-entrancy covers a handler that changes the registry in the middle of a dispatch, and a transport that notifies synchronously from inside `connect`. A dispatch is the ordered list of invocations it would make.
- Falsy guards: the guards `e &&` (line 66) and `arr[i] &&` (line 123) never fail, because only `EventHandler` objects are ever stored.
- JavaScript numbers: the budget and command ids are mathematical integers. A fractional budget (2.5 counts 1.5, 0.5, then -0.5 and retries forever) and the string conversion of object keys are not modelled.
- `init` with a missing socket: `addEventToSocket` would throw. `Init` always takes a socket.
- `RequestState` (lines 9-12) is never used and is not modelled.
- Socket notifications require a wired socket (`link` present), because they exist only once `init` installed them. `Run` therefore models traces after `init`. `Apply` also covers single steps before `init`.
- The code has no backoff delay, `onceEventHandler` is empty, and nothing signals that retries are exhausted, so the model has none of these either.

=== FILE: dispatch.dfy ===
/** Properties that tie the registry operations of a session to what a
    later inbound message dispatches. */
module NetDispatch {
  import opened NetTypes
  import opened EventRegistry
  import opened NetCenter

  /** `k` registrations of the same command, one per entry of `hs`. */
  function Registrations(cmd: int, hs: seq<Handler>): (es: seq<Event>)
    ensures |es| == |hs|
    ensures forall i :: 0 <= i < |hs| ==> es[i] == OnCall(cmd, hs[i].callback, hs[i].target)
  {
    seq(|hs|, i requires 0 <= i < |hs| => OnCall(cmd, hs[i].callback, hs[i].target))
  }

  /** Registrations through `onEventHandler` append to the command's list in
      call order, produce no effects and leave the rest of the session
      alone. */
  lemma {:induction false} RegistrationsAppend(n: Net, cmd: int, hs: seq<Handler>)
    requires n.link.Some?
    ensures Entries(Run(n, Registrations(cmd, hs)).net.handlers, cmd) == Entries(n.handlers, cmd) + hs
    ensures Run(n, Registrations(cmd, hs)).effects == []
    ensures Run(n, Registrations(cmd, hs)).net.state == n.state
    ensures Run(n, Registrations(cmd, hs)).net.link == n.link
    ensures Run(n, Registrations(cmd, hs)).net.budget == n.budget
    ensures Run(n, Registrations(cmd, hs)).net.handlers.Keys
         == if |hs| == 0 then n.handlers.Keys else n.handlers.Keys + {cmd}
    ensures forall c :: c in n.handlers && c != cmd ==> Run(n, Registrations(cmd, hs)).net.handlers[c] == n.handlers[c]
    decreases |hs|
  {
    if |hs| > 0 {
      var es := Registrations(cmd, hs);
      assert es[1..] == Registrations(cmd, hs[1..]);
      var n1 := OnEventHandler(n, cmd, hs[0].callback, hs[0].target);
      ApplyOnCall(n, cmd, hs[0].callback, hs[0].target);
      RunStep(n, es);
      RegistrationsAppend(n1, cmd, hs[1..]);
      assert hs == [hs[0]] + hs[1..];
    }
  }

  /** One registration event is `onEventHandler` and has no effects. */
  lemma ApplyOnCall(n: Net, cmd: int, callback: CallbackRef, target: TargetRef)
    requires Wired(n)
    ensures Apply(n, OnCall(cmd, callback, target)) == Step(OnEventHandler(n, cmd, callback, target), [])
  {
  }

  /** Registering `hs` under a command, then receiving a message for it,
      invokes the earlier registrations followed by `hs`, each exactly once,
      in registration order, on its own target, with the message payload. */
  lemma DispatchInRegistrationOrder(n: Net, hs: seq<Handler>, msg: Msg)
    requires n.link.Some? && (msg.cmd in n.handlers || |hs| > 0)
    ensures OnMessage(Run(n, Registrations(msg.cmd, hs)).net, msg).effects
         == Invocations(Entries(n.handlers, msg.cmd) + hs, msg.data)
  {
    var es := Registrations(msg.cmd, hs);
    RegistrationsAppend(n, msg.cmd, hs);
    var n1 := Run(n, es).net;
    assert msg.cmd in n1.handlers;
  }

  /** Removing the last registrations of a command leaves an EMPTY list
      mapped under it: a later message for that command invokes nothing and
      is not reported as unknown. */
  lemma OffLeavesEmptyList(n: Net, cmd: int, callback: CallbackRef, target: TargetRef, data: Payload)
    requires n.link.Some? && cmd in n.handlers
    requires forall i :: 0 <= i < |n.handlers[cmd]| ==> n.handlers[cmd][i] == Handler(callback, target)
    ensures cmd in OffEventHandler(n, cmd, callback, target).net.handlers
    ensures OffEventHandler(n, cmd, callback, target).net.handlers[cmd] == []
    ensures OnMessage(OffEventHandler(n, cmd, callback, target).net, Msg(cmd, data)).effects == []
  {
    WithoutAll(n.handlers[cmd], Handler(callback, target));
  }

  /** After `clearEventHandler` a message for the command is unknown. */
  lemma ClearMakesUnknown(n: Net, cmd: int, data: Payload)
    requires n.link.Some?
    ensures OnMessage(ClearEventHandler(n, cmd), Msg(cmd, data)).effects == [Log(UnknownCommand(cmd))]
  {
  }

  /** `request` registers its handler whether or not the send goes through:
      the registry after it does not depend on the transport's answer nor on
      the connection state, and equals a plain `onEventHandler`. */
  lemma RequestRegistersEitherWay(n: Net, msg: Msg, callback: CallbackRef, target: TargetRef, ok: bool)
    requires Wired(n)
    ensures Request(n, msg, callback, target, ok).net == OnEventHandler(n, msg.cmd, callback, target)
    ensures Request(n, msg, callback, target, ok).net == Request(n, msg, callback, target, !ok).net
    ensures Request(n, msg, callback, target, ok).effects == Send(n, msg, ok).effects
  {
  }

  /** `clearEventHandler` is idempotent on the session. */
  lemma ClearIdempotent(n: Net, cmd: int)
    ensures ClearEventHandler(ClearEventHandler(n, cmd), cmd) == ClearEventHandler(n, cmd)
  {
  }
}

=== FILE: lifecycle.dfy ===
/** Properties of whole event traces: the connection never returns to
    `Closed`, so the transport is asked to connect at most once, and how the
    reconnect budget is spent by successive closes. */
module NetLifecycle {
  import opened NetTypes
  import opened EventRegistry
  import opened NetCenter

  /** Once a session has left `Closed`, no trace brings it back. */
  lemma {:induction false} NeverBackToClosed(n: Net, es: seq<Event>)
    requires n.link.Some? && n.state != Closed
    ensures Run(n, es).net.state != Closed
    decreases |es|
  {
    if |es| > 0 {
      NeverBackToClosed(Apply(n, es[0]).net, es[1..]);
    }
  }

  /** Once a session has left `Closed`, no trace makes a transport connect,
      however many `onClose` reconnects it contains. */
  lemma {:induction false} NoConnectAfterLeavingClosed(n: Net, es: seq<Event>)
    requires n.link.Some? && n.state != Closed
    ensures ConnectCalls(Run(n, es).effects) == 0
    decreases |es|
  {
    if |es| > 0 {
      var s := Apply(n, es[0]);
      NoConnectAfterLeavingClosed(s.net, es[1..]);
      ConnectCallsAppend(s.effects, Run(s.net, es[1..]).effects);
    }
  }

  /** Over the whole life of a wired session the transport is asked to
      connect at most once. */
  lemma {:induction false} AtMostOneConnect(n: Net, es: seq<Event>)
    requires n.link.Some?
    ensures ConnectCalls(Run(n, es).effects) <= 1
    decreases |es|
  {
    if |es| > 0 {
      var s := Apply(n, es[0]);
      var t := Run(s.net, es[1..]);
      ConnectCallsAppend(s.effects, t.effects);
      if ConnectCalls(s.effects) == 1 {
        NoConnectAfterLeavingClosed(s.net, es[1..]);
      } else {
        AtMostOneConnect(s.net, es[1..]);
      }
    }
  }

  /** Whether a trace calls `init`. */
  predicate Reinitialises(es: seq<Event>)
  {
    exists i :: 0 <= i < |es| && es[i].InitCall?
  }

  /** Without a new `init` the budget is never replenished: a non-negative
      budget only shrinks and never goes negative, a negative one is kept. */
  lemma {:induction false} BudgetNeverReplenished(n: Net, es: seq<Event>)
    requires n.link.Some? && !Reinitialises(es)
    ensures n.budget >= 0 ==> 0 <= Run(n, es).net.budget <= n.budget
    ensures n.budget < 0 ==> Run(n, es).net.budget == n.budget
    decreases |es|
  {
    if |es| > 0 {
      BudgetNeverReplenished(Apply(n, es[0]).net, es[1..]);
    }
  }

  /** `k` consecutive close notifications. */
  function Closes(k: nat): (es: seq<Event>)
    ensures |es| == k && forall i :: 0 <= i < k ==> es[i] == SocketClosed
  {
    seq(k, _ => SocketClosed)
  }

  /** After `k` closes a budget `b >= 0` is `max(0, b - k)` and a negative
      budget is untouched; the socket and registry stay as they were. */
  lemma {:induction false} ClosesDrainBudget(n: Net, k: nat)
    requires n.link.Some?
    ensures n.budget >= 0 ==> Run(n, Closes(k)).net.budget == if n.budget >= k then n.budget - k else 0
    ensures n.budget < 0 ==> Run(n, Closes(k)).net.budget == n.budget
    ensures Run(n, Closes(k)).net.handlers == n.handlers
    ensures Run(n, Closes(k)).net.link == n.link
    decreases k
  {
    if k > 0 {
      var es := Closes(k);
      assert es[1..] == Closes(k - 1);
      ClosesDrainBudget(OnClose(n).net, k - 1);
    }
  }

  /** With budget zero a close is a complete no-op on the session, and so
      is any number of them; in particular a `Connected` session stays
      `Connected`. */
  lemma {:induction false} ZeroBudgetIgnoresCloses(n: Net, k: nat)
    requires n.link.Some? && n.budget == 0
    ensures Run(n, Closes(k)).net == n
    ensures ConnectCalls(Run(n, Closes(k)).effects) == 0
    decreases k
  {
    if k > 0 {
      var es := Closes(k);
      assert es[1..] == Closes(k - 1);
      ZeroBudgetIgnoresCloses(n, k - 1);
      ConnectCallsAppend([Log(ClosedNote)], Run(n, es[1..]).effects);
    }
  }

  /** A non-zero budget always runs `connect()`, which rewrites the state
      to `Connecting` even from `Connected`, but reaches the transport only
      from `Closed`. */
  lemma CloseReconnectIsConnect(n: Net)
    requires n.link.Some? && n.budget != 0
    ensures OnClose(n).net == Connect(n).net.(budget := OnClose(n).net.budget)
    ensures OnClose(n).effects == Connect(n).effects
  {
  }
}

=== FILE: net_center.dfy ===
/** The network centre as an immutable record and pure transitions. Each
    public operation and each socket notification maps a session to the next
    session together with the effects it produces (transport calls, handler
    invocations, log lines). */
module NetCenter {
  import opened NetTypes
  import opened EventRegistry

  /** The socket and connect option that `init` stores together. */
  datatype Link = Link(socket: SocketRef, option: ConnectOption)

  /** One session: connection state, the wired socket (absent before
      `init`), the signed reconnect budget (negative retries forever, zero
      never retries, positive counts the retries left) and the registry. */
  datatype Net = Net(state: SocketState, link: Option<Link>, budget: int, handlers: Registry)

  /** A transition's outcome: the next session and what it did, in order. */
  datatype Step = Step(net: Net, effects: seq<Effect>)

  /** What `send` does and returns; `send` never changes the session. */
  datatype SendResult = SendResult(effects: seq<Effect>, sent: bool)

  /** A freshly constructed session. */
  const Initial := Net(Closed, None, 0, map[])

  /** Every reachable session is connected only over a wired socket. */
  predicate Wired(n: Net)
  {
    n.state == Connected ==> n.link.Some?
  }

  /** A fresh session is `Closed`, has no socket, budget zero and no
      registrations; before `init`, `connect` reaches no transport and only
      marks the session `Connecting`, and `send` is refused. */
  lemma FreshSession(msg: Msg, transportResult: bool)
    ensures Initial.state == Closed && Initial.link == None
    ensures Initial.budget == 0 && Initial.handlers == map[]
    ensures Wired(Initial)
    ensures Connect(Initial).effects == [] && Connect(Initial).net.state == Connecting
    ensures !Send(Initial, msg, transportResult).sent
    ensures Send(Initial, msg, transportResult).effects == [Log(NotConnected)]
  {
  }

  /** `init`: store socket, option and budget and wire the notifications.
      The connection state and the registry are NOT reset. */
  function Init(n: Net, socket: SocketRef, option: ConnectOption, budget: int): (r: Net)
    ensures r.link == Some(Link(socket, option)) && r.budget == budget
    ensures r.state == n.state && r.handlers == n.handlers
  {
    n.(link := Some(Link(socket, option)), budget := budget)
  }

  /** `connect`: the transport is asked to connect only from `Closed` with a
      socket present, yet the state becomes `Connecting` on every call. */
  function Connect(n: Net): (r: Step)
    ensures r.net.state == Connecting
    ensures r.net.link == n.link && r.net.budget == n.budget && r.net.handlers == n.handlers
    ensures ConnectCalls(r.effects) == 1 <==> n.link.Some? && n.state == Closed
    ensures |r.effects| == if n.link.Some? && n.state == Closed then 1 else 0
    ensures forall i :: 0 <= i < |r.effects| ==>
      n.link.Some? && r.effects[i] == SocketConnect(n.link.value.socket, n.link.value.option)
  {
    var effects := match n.link
      case Some(l) => if n.state == Closed then [SocketConnect(l.socket, l.option)] else []
      case None => [];
    Step(n.(state := Connecting), effects)
  }

  /** Socket `onConnect`: the session is connected. */
  function OnConnect(n: Net): (r: Step)
    requires n.link.Some?
    ensures r.net.state == Connected
    ensures r.net.link == n.link && r.net.budget == n.budget && r.net.handlers == n.handlers
    ensures r.effects == [Log(ConnectedNote)]
  {
    Step(n.(state := Connected), [Log(ConnectedNote)])
  }

  /** Socket `onMessage`: dispatch to the registrations of `msg.cmd`. The
      session itself does not change. */
  function OnMessage(n: Net, msg: Msg): (r: Step)
    requires n.link.Some?
    ensures r.net == n
    ensures msg.cmd !in n.handlers ==> r.effects == [Log(UnknownCommand(msg.cmd))]
    ensures msg.cmd in n.handlers ==> r.effects == Invocations(n.handlers[msg.cmd], msg.data)
  {
    Step(n, Dispatch(n.handlers, msg))
  }

  /** Socket `onClose`: spend the reconnect budget. A negative budget
      reconnects and stays as it is; a zero budget only logs and leaves the
      whole session unchanged; a positive budget drops by one and reconnects. */
  function OnClose(n: Net): (r: Step)
    requires n.link.Some?
    ensures r.net.link == n.link && r.net.handlers == n.handlers
    ensures n.budget < 0 ==> r.net.budget == n.budget
    ensures n.budget == 0 ==> r.net == n && r.effects == [Log(ClosedNote)]
    ensures n.budget > 0 ==> r.net.budget == n.budget - 1
    ensures n.budget != 0 ==> r.net.state == Connecting
    ensures ConnectCalls(r.effects) == 1 <==> n.budget != 0 && n.state == Closed
    ensures ConnectCalls(r.effects) == if n.budget != 0 && n.state == Closed then 1 else 0
  {
    if n.budget < 0 then Connect(n)
    else if n.budget == 0 then Step(n, [Log(ClosedNote)])
    else Connect(n.(budget := n.budget - 1))
  }

  /** Socket `onError`: only logs. */
  function OnError(n: Net): (r: Step)
    requires n.link.Some?
    ensures r.net == n && r.effects == [Log(NetworkError)]
  {
    Step(n, [Log(NetworkError)])
  }

  /** `send`: refused with a log line unless connected; otherwise one
      transport send, whose own result (`transportResult`) is returned. */
  function Send(n: Net, msg: Msg, transportResult: bool): (r: SendResult)
    requires Wired(n)
    ensures r.sent <==> n.state == Connected && transportResult
    ensures n.state != Connected ==> r.effects == [Log(NotConnected)]
    ensures n.state == Connected ==> r.effects == [SocketSend(n.link.value.socket, msg)]
  {
    if n.state != Connected then SendResult([Log(NotConnected)], false)
    else SendResult([SocketSend(n.link.value.socket, msg)], transportResult)
  }

  /** `request`: register the handler under `msg.cmd`, then send. The
      registration stays whatever `send` does, and the result of `send` is
      dropped. */
  function Request(n: Net, msg: Msg, callback: CallbackRef, target: TargetRef, transportResult: bool): (r: Step)
    requires Wired(n)
    ensures r.net.state == n.state && r.net.link == n.link && r.net.budget == n.budget
    ensures Entries(r.net.handlers, msg.cmd) == Entries(n.handlers, msg.cmd) + [Handler(callback, target)]
    ensures r.net.handlers.Keys == n.handlers.Keys + {msg.cmd}
    ensures forall c :: c in n.handlers && c != msg.cmd ==> r.net.handlers[c] == n.handlers[c]
    ensures n.state == Connected ==> r.effects == [SocketSend(n.link.value.socket, msg)]
    ensures n.state != Connected ==> r.effects == [Log(NotConnected)]
  {
    var n1 := OnEventHandler(n, msg.cmd, callback, target);
    Step(n1, Send(n1, msg, transportResult).effects)
  }

  /** `onEventHandler`: append one registration under `cmd`. */
  function OnEventHandler(n: Net, cmd: int, callback: CallbackRef, target: TargetRef): (r: Net)
    ensures r.state == n.state && r.link == n.link && r.budget == n.budget
    ensures Entries(r.handlers, cmd) == Entries(n.handlers, cmd) + [Handler(callback, target)]
    ensures r.handlers.Keys == n.handlers.Keys + {cmd}
    ensures forall c :: c in n.handlers && c != cmd ==> r.handlers[c] == n.handlers[c]
  {
    var r := n.(handlers := Add(n.handlers, cmd, Handler(callback, target)));
    assert r.handlers[cmd] == r.handlers[cmd][..|Entries(n.handlers, cmd)|] + [Handler(callback, target)];
    r
  }

  /** `onceEventHandler`: its body is empty, so nothing changes. */
  function OnceEventHandler(n: Net, cmd: int, callback: CallbackRef, target: TargetRef): (r: Net)
    ensures r == n
  {
    n
  }

  /** `offEventHandler`: drop every exact (callback, target) match under
      `cmd`; an unknown command only logs. An emptied list stays mapped. */
  function OffEventHandler(n: Net, cmd: int, callback: CallbackRef, target: TargetRef): (r: Step)
    ensures r.net.state == n.state && r.net.link == n.link && r.net.budget == n.budget
    ensures r.net.handlers.Keys == n.handlers.Keys
    ensures cmd !in n.handlers ==> r.net == n && r.effects == [Log(NoSuchCommand(cmd))]
    ensures cmd in n.handlers ==> r.net.handlers[cmd] == Without(n.handlers[cmd], Handler(callback, target))
    ensures cmd in n.handlers ==> r.effects == []
    ensures forall c :: c in n.handlers && c != cmd ==> r.net.handlers[c] == n.handlers[c]
  {
    if cmd !in n.handlers then Step(n, [Log(NoSuchCommand(cmd))])
    else Step(n.(handlers := Remove(n.handlers, cmd, Handler(callback, target))), [])
  }

  /** `clearEventHandler`: forget `cmd` entirely. */
  function ClearEventHandler(n: Net, cmd: int): (r: Net)
    ensures r.state == n.state && r.link == n.link && r.budget == n.budget
    ensures cmd !in r.handlers
    ensures r.handlers.Keys == n.handlers.Keys - {cmd}
    ensures forall c :: c in r.handlers ==> r.handlers[c] == n.handlers[c]
  {
    n.(handlers := Erase(n.handlers, cmd))
  }

  /** Every call a session can receive: the public API and the socket's
      four notifications. */
  datatype Event =
    | InitCall(socket: SocketRef, option: ConnectOption, budget: int)
    | ConnectCall
    | SocketOpened
    | SocketMessage(msg: Msg)
    | SocketClosed
    | SocketError
    | SendCall(msg: Msg, transportResult: bool)
    | RequestCall(msg: Msg, callback: CallbackRef, target: TargetRef, transportResult: bool)
    | OnCall(cmd: int, callback: CallbackRef, target: TargetRef)
    | OnceCall(cmd: int, callback: CallbackRef, target: TargetRef)
    | OffCall(cmd: int, callback: CallbackRef, target: TargetRef)
    | ClearCall(cmd: int)
  {
    /** Notifications come from a socket, so they need one to be wired. */
    predicate IsNotification()
    {
      SocketOpened? || SocketMessage? || SocketClosed? || SocketError?
    }

    /** Events that belong to the connection lifecycle, not the registry. */
    predicate IsLifecycle()
    {
      InitCall? || ConnectCall? || SocketOpened? || SocketClosed? || SocketError?
    }
  }

  /** Whether `e` can happen in `n`. */
  predicate Enabled(n: Net, e: Event)
  {
    e.IsNotification() ==> n.link.Some?
  }

  /** One event. Every event keeps the session wired, none of them ever
      moves it back to `Closed`, and lifecycle events leave the registry
      alone. */
  function Apply(n: Net, e: Event): (r: Step)
    requires Wired(n) && Enabled(n, e)
    ensures Wired(r.net)
    ensures r.net.state == Closed ==> n.state == Closed
    ensures n.link.Some? ==> r.net.link.Some?
    ensures e.IsLifecycle() ==> r.net.handlers == n.handlers
    ensures !e.InitCall? && n.budget >= 0 ==> 0 <= r.net.budget <= n.budget
    ensures !e.InitCall? && n.budget < 0 ==> r.net.budget == n.budget
    ensures n.state != Closed ==> ConnectCalls(r.effects) == 0
    ensures ConnectCalls(r.effects) <= 1
    ensures ConnectCalls(r.effects) == 1 ==> r.net.state != Closed
  {
    match e
    case InitCall(s, o, b) => Step(Init(n, s, o, b), [])
    case ConnectCall => Connect(n)
    case SocketOpened => OnConnect(n)
    case SocketMessage(msg) =>
      var r := OnMessage(n, msg);
      NoConnectCalls(r.effects);
      r
    case SocketClosed => OnClose(n)
    case SocketError => OnError(n)
    case SendCall(msg, ok) => Step(n, Send(n, msg, ok).effects)
    case RequestCall(msg, cb, t, ok) => Request(n, msg, cb, t, ok)
    case OnCall(cmd, cb, t) => Step(OnEventHandler(n, cmd, cb, t), [])
    case OnceCall(cmd, cb, t) => Step(OnceEventHandler(n, cmd, cb, t), [])
    case OffCall(cmd, cb, t) => OffEventHandler(n, cmd, cb, t)
    case ClearCall(cmd) => Step(ClearEventHandler(n, cmd), [])
  }

  /** A sequence of events on a session whose socket is wired; the effects
      are concatenated in order. */
  function Run(n: Net, es: seq<Event>): (r: Step)
    requires n.link.Some?
    ensures r.net.link.Some?
    decreases |es|
  {
    if |es| == 0 then Step(n, [])
    else
      var s := Apply(n, es[0]);
      var t := Run(s.net, es[1..]);
      Step(t.net, s.effects + t.effects)
  }

  /** A trace is its first event followed by the rest. */
  lemma RunStep(n: Net, es: seq<Event>)
    requires n.link.Some? && |es| > 0
    ensures Run(n, es).net == Run(Apply(n, es[0]).net, es[1..]).net
    ensures Run(n, es).effects == Apply(n, es[0]).effects + Run(Apply(n, es[0]).net, es[1..]).effects
  {
  }
}

=== FILE: registry.dfy ===
/** The event registry of the network centre: a map from command id to the
    ordered list of (callback, target) registrations for that command, with
    append, removal by exact pair match, clearing a key, and in-order
    dispatch. */
module EventRegistry {
  import opened NetTypes

  type Registry = map<int, seq<Handler>>

  /** The registrations of `cmd`, or none when the key is absent. */
  function Entries(m: Registry, cmd: int): seq<Handler>
  {
    if cmd in m then m[cmd] else []
  }

  /** `s` with every entry equal to `h` dropped and the others kept in their
      original relative order. */
  function Without(s: seq<Handler>, h: Handler): (r: seq<Handler>)
    ensures |r| <= |s|
    ensures h !in r
    ensures forall x :: x in r ==> x in s
    decreases |s|
  {
    if |s| == 0 then []
    else (if s[0] == h then [] else [s[0]]) + Without(s[1..], h)
  }

  /** Removal keeps exactly the entries that differ from `h`. */
  lemma {:induction false} WithoutKeeps(s: seq<Handler>, h: Handler, x: Handler)
    ensures x in Without(s, h) <==> x in s && x != h
    decreases |s|
  {
    if |s| > 0 {
      WithoutKeeps(s[1..], h, x);
      assert x in s <==> x == s[0] || x in s[1..] by {
        assert s == [s[0]] + s[1..];
      }
    }
  }

  /** Removal drops every copy of `h` and no copy of anything else. */
  lemma {:induction false} WithoutCounts(s: seq<Handler>, h: Handler)
    ensures multiset(Without(s, h)) == multiset(s)[h := 0]
    decreases |s|
  {
    if |s| > 0 {
      WithoutCounts(s[1..], h);
      assert s == [s[0]] + s[1..];
      assert multiset(s) == multiset([s[0]]) + multiset(s[1..]);
    }
  }

  /** Removal works piecewise, so the survivors keep their relative order. */
  lemma {:induction false} WithoutAppend(a: seq<Handler>, b: seq<Handler>, h: Handler)
    ensures Without(a + b, h) == Without(a, h) + Without(b, h)
    decreases |a|
  {
    if |a| == 0 {
      assert a + b == b;
    } else {
      assert (a + b)[0] == a[0];
      assert (a + b)[1..] == a[1..] + b;
      WithoutAppend(a[1..], b, h);
    }
  }

  /** Removing a pair that is not registered changes nothing. */
  lemma {:induction false} WithoutAbsent(s: seq<Handler>, h: Handler)
    requires h !in s
    ensures Without(s, h) == s
    decreases |s|
  {
    if |s| > 0 {
      assert s == [s[0]] + s[1..];
      WithoutAbsent(s[1..], h);
    }
  }

  /** Removing a pair from a list holding nothing else empties it. */
  lemma {:induction false} WithoutAll(s: seq<Handler>, h: Handler)
    requires forall i :: 0 <= i < |s| ==> s[i] == h
    ensures Without(s, h) == []
    decreases |s|
  {
    if |s| > 0 {
      WithoutAll(s[1..], h);
    }
  }

  /** Removing the same pair twice is the same as removing it once. */
  lemma WithoutIdempotent(s: seq<Handler>, h: Handler)
    ensures Without(Without(s, h), h) == Without(s, h)
  {
    WithoutAbsent(Without(s, h), h);
  }

  /** The removal loop of `offEventHandler` as written: walk the array from
      the back and splice out every entry whose callback and target both
      match. Its result is `Without(a, h)`. */
  method SpliceMatches(a: seq<Handler>, callback: CallbackRef, target: TargetRef) returns (arr: seq<Handler>)
    ensures arr == Without(a, Handler(callback, target))
  {
    var h := Handler(callback, target);
    arr := a;
    var i := |a| - 1;
    while i >= 0
      invariant -1 <= i < |a|
      invariant arr == a[..i + 1] + Without(a[i + 1..], h)
      decreases i + 1
    {
      assert arr[i] == a[i];
      assert a[i..][0] == a[i] && a[i..][1..] == a[i + 1..];
      if arr[i].callback == callback && arr[i].target == target {
        arr := arr[..i] + arr[i + 1..];
        assert arr[..i] == a[..i];
      }
      i := i - 1;
    }
    assert a[0..] == a;
  }

  /** The calls one dispatch makes: every entry once, in order, on its own
      target, with the message payload. */
  function Invocations(hs: seq<Handler>, data: Payload): (r: seq<Effect>)
    ensures |r| == |hs|
    ensures forall i :: 0 <= i < |hs| ==> r[i] == Invoke(hs[i].callback, hs[i].target, data)
    decreases |hs|
  {
    if |hs| == 0 then []
    else [Invoke(hs[0].callback, hs[0].target, data)] + Invocations(hs[1..], data)
  }

  /** Dispatch of one inbound message: an unknown command only logs; a known
      one, even with an empty list, invokes its entries and logs nothing. */
  function Dispatch(m: Registry, msg: Msg): (r: seq<Effect>)
    ensures msg.cmd !in m ==> r == [Log(UnknownCommand(msg.cmd))]
    ensures msg.cmd in m ==> |r| == |m[msg.cmd]|
    ensures msg.cmd in m ==> forall i :: 0 <= i < |r| ==>
      r[i] == Invoke(m[msg.cmd][i].callback, m[msg.cmd][i].target, msg.data)
  {
    if msg.cmd !in m then [Log(UnknownCommand(msg.cmd))]
    else Invocations(m[msg.cmd], msg.data)
  }

  /** `onEventHandler`: one more registration at the end of `cmd`'s list,
      creating the list when absent; duplicates are kept. */
  function Add(m: Registry, cmd: int, h: Handler): (r: Registry)
    ensures cmd in r && |r[cmd]| == |Entries(m, cmd)| + 1
    ensures r[cmd][..|Entries(m, cmd)|] == Entries(m, cmd) && r[cmd][|Entries(m, cmd)|] == h
    ensures r.Keys == m.Keys + {cmd}
    ensures forall c :: c in m && c != cmd ==> r[c] == m[c]
  {
    var r := m[cmd := Entries(m, cmd) + [h]];
    assert r[cmd][..|Entries(m, cmd)|] == Entries(m, cmd);
    r
  }

  /** `offEventHandler`: drop every exact match from `cmd`'s list. An unknown
      command is left alone; a list that becomes empty STAYS in the map. */
  function Remove(m: Registry, cmd: int, h: Handler): (r: Registry)
    ensures r.Keys == m.Keys
    ensures cmd !in m ==> r == m
    ensures cmd in m ==> r[cmd] == Without(m[cmd], h)
    ensures forall c :: c in m && c != cmd ==> r[c] == m[c]
  {
    if cmd !in m then m else m[cmd := Without(m[cmd], h)]
  }

  /** `clearEventHandler`: `cmd` is no longer mapped, every other key keeps
      its list. */
  function Erase(m: Registry, cmd: int): (r: Registry)
    ensures cmd !in r
    ensures r.Keys == m.Keys - {cmd}
    ensures forall c :: c in r ==> r[c] == m[c]
  {
    m - {cmd}
  }

  /** Clearing is idempotent. */
  lemma EraseIdempotent(m: Registry, cmd: int)
    ensures Erase(Erase(m, cmd), cmd) == Erase(m, cmd)
  {
  }

  /** A run of registrations under one command, in order. */
  function AddAll(m: Registry, cmd: int, hs: seq<Handler>): Registry
    decreases |hs|
  {
    if |hs| == 0 then m else AddAll(Add(m, cmd, hs[0]), cmd, hs[1..])
  }

  /** Registrations accumulate in call order and touch no other command. */
  lemma {:induction false} AddAllAppends(m: Registry, cmd: int, hs: seq<Handler>)
    ensures Entries(AddAll(m, cmd, hs), cmd) == Entries(m, cmd) + hs
    ensures AddAll(m, cmd, hs).Keys == if |hs| == 0 then m.Keys else m.Keys + {cmd}
    ensures forall c :: c in m && c != cmd ==> AddAll(m, cmd, hs)[c] == m[c]
    decreases |hs|
  {
    if |hs| > 0 {
      var m1 := Add(m, cmd, hs[0]);
      AddAllAppends(m1, cmd, hs[1..]);
      assert Entries(m1, cmd) == Entries(m, cmd) + [hs[0]];
      assert hs == [hs[0]] + hs[1..];
    }
  }

  /** Registering `hs` under a command and then dispatching on it invokes
      the earlier registrations and then `hs`, each exactly once, in
      registration order, with the message payload. Only a command that
      stays unmapped is reported as unknown instead. */
  lemma DispatchAfterRegistrations(m: Registry, hs: seq<Handler>, msg: Msg)
    requires msg.cmd in m || |hs| > 0
    ensures Dispatch(AddAll(m, msg.cmd, hs), msg) == Invocations(Entries(m, msg.cmd) + hs, msg.data)
  {
    AddAllAppends(m, msg.cmd, hs);
  }

  /** Removing a pair right after registering it, when that pair was not
      already registered under the command, restores the command's list,
      except that a command that had no list now maps to an empty one. */
  lemma {:induction false} RemoveUndoesAdd(m: Registry, cmd: int, h: Handler)
    requires h !in Entries(m, cmd)
    ensures Remove(Add(m, cmd, h), cmd, h) == m[cmd := Entries(m, cmd)]
    ensures cmd in m ==> Remove(Add(m, cmd, h), cmd, h) == m
  {
    var e := Entries(m, cmd);
    var r := Remove(Add(m, cmd, h), cmd, h);
    assert Add(m, cmd, h)[cmd] == e + [h];
    WithoutAppend(e, [h], h);
    WithoutAbsent(e, h);
    assert Without([h], h) == [];
    assert r[cmd] == e;
    assert r.Keys == m.Keys + {cmd};
  }

  /** On a mapped command, removing a pair right after registering it is
      the same as removing it without the registration: every earlier copy
      of the pair goes too. */
  lemma RemoveAfterAdd(m: Registry, cmd: int, h: Handler)
    requires cmd in m
    ensures Remove(Add(m, cmd, h), cmd, h) == Remove(m, cmd, h)
  {
    var a := Remove(Add(m, cmd, h), cmd, h);
    var b := Remove(m, cmd, h);
    WithoutAppend(m[cmd], [h], h);
    assert Without([h], h) == [];
    assert a.Keys == b.Keys;
    assert a[cmd] == b[cmd];
  }

  /** Removing one pair keeps every entry that differs in either field. */
  lemma RemoveKeepsOthers(m: Registry, cmd: int, h: Handler, x: Handler)
    requires cmd in m && x in m[cmd] && x != h
    ensures x in Remove(m, cmd, h)[cmd]
  {
    WithoutKeeps(m[cmd], h, x);
  }
}

=== FILE: scenarios.dfy ===
/** Concrete sessions, step by step. */
module NetScenarios {
  import opened NetTypes
  import opened EventRegistry
  import opened NetCenter
  import opened NetLifecycle

  const Sock := SocketRef(1)
  const Url := Address("ws://x")

  /** Budget zero: one transport connect, `Connected` after the socket
      opens, and a close leaves the session `Connected` with no reconnect. */
  lemma ZeroBudgetSession()
    ensures Run(Init(Initial, Sock, Url, 0), [ConnectCall]).effects == [SocketConnect(Sock, Url)]
    ensures Run(Init(Initial, Sock, Url, 0), [ConnectCall]).net.state == Connecting
    ensures Run(Init(Initial, Sock, Url, 0), [ConnectCall, SocketOpened]).net.state == Connected
    ensures Run(Init(Initial, Sock, Url, 0), [ConnectCall, SocketOpened, SocketClosed]).net.state == Connected
    ensures Run(Init(Initial, Sock, Url, 0), [ConnectCall, SocketOpened, SocketClosed]).effects
         == [SocketConnect(Sock, Url), Log(ConnectedNote), Log(ClosedNote)]
  {
  }

  /** Budget two: the first two closes rewrite the state to `Connecting`
      and spend the budget; the third finds it empty and leaves the
      reopened session `Connected`. No close reaches the transport. */
  lemma BudgetTwoSession()
    ensures Run(Init(Initial, Sock, Url, 2), [ConnectCall, SocketOpened, SocketClosed]).net.budget == 1
    ensures Run(Init(Initial, Sock, Url, 2), [ConnectCall, SocketOpened, SocketClosed]).net.state == Connecting
    ensures Run(Init(Initial, Sock, Url, 2),
                [ConnectCall, SocketOpened, SocketClosed, SocketOpened, SocketClosed, SocketOpened, SocketClosed]).net
         == Net(Connected, Some(Link(Sock, Url)), 0, map[])
    ensures ConnectCalls(Run(Init(Initial, Sock, Url, 2),
                [ConnectCall, SocketOpened, SocketClosed, SocketOpened, SocketClosed, SocketOpened, SocketClosed]).effects) == 1
  {
    var n := Init(Initial, Sock, Url, 2);
    var es := [ConnectCall, SocketOpened, SocketClosed, SocketOpened, SocketClosed, SocketOpened, SocketClosed];
    AtMostOneConnect(n, es);
    assert es == [ConnectCall] + es[1..];
    RunStep(n, es);
    ConnectCallsAppend(Connect(n).effects, Run(Connect(n).net, es[1..]).effects);
    NoConnectAfterLeavingClosed(Connect(n).net, es[1..]);
  }

  /** A request while connected registers under its command and sends; the
      answer invokes the callback on its target with the answer's payload. */
  lemma PingPongSession()
    ensures Run(Init(Initial, Sock, Url, 0),
                [ConnectCall, SocketOpened, RequestCall(Msg(5, "ping"), CallbackRef(7), TargetRef(9), true),
                 SocketMessage(Msg(5, "pong"))]).effects
         == [SocketConnect(Sock, Url), Log(ConnectedNote), SocketSend(Sock, Msg(5, "ping")),
             Invoke(CallbackRef(7), TargetRef(9), "pong")]
  {
    var n := Init(Initial, Sock, Url, 0);
    var n2 := OnConnect(Connect(n).net).net;
    var n3 := Request(n2, Msg(5, "ping"), CallbackRef(7), TargetRef(9), true).net;
    assert n3.handlers[5] == [Handler(CallbackRef(7), TargetRef(9))];
  }

  /** `send` before the socket opens is refused and never reaches the
      transport. */
  lemma SendBeforeOpenSession()
    ensures Run(Init(Initial, Sock, Url, 0), [ConnectCall, SendCall(Msg(1, "x"), true)]).effects
         == [SocketConnect(Sock, Url), Log(NotConnected)]
  {
  }
}

=== FILE: types.dfy ===
/** Shared vocabulary of the network centre: connection state, connect
    options, opaque object identities, messages, handler entries, and the
    observable effects a transition records. */
module NetTypes {

  datatype Option<+T> = None | Some(value: T)

  /** Connection state of the session. A fresh session starts `Closed`. */
  datatype SocketState = Closed | Connecting | Connected

  /** Where to connect: an address string or a structured endpoint. It is
      stored by `init` and handed unchanged to every transport connect. */
  datatype ConnectOption =
    | Address(url: string)
    | Endpoint(ip: string, port: int, protocol: string)

  /** Opaque identities standing for JavaScript object references, which the
      session only ever compares with `===`. */
  datatype SocketRef = SocketRef(id: nat)
  datatype CallbackRef = CallbackRef(id: nat)

  /** The receiver a callback is invoked on; `request` makes it optional. */
  datatype TargetRef = NoTarget | TargetRef(id: nat)

  /** Message payloads are passed through untouched. */
  type Payload = string

  /** A message, inbound or outbound: a command id and its payload. */
  datatype Msg = Msg(cmd: int, data: Payload)

  /** One registration: a callback together with its receiver. Two entries
      are the same registration only when both fields are identical. */
  datatype Handler = Handler(callback: CallbackRef, target: TargetRef)

  /** What the session writes to the log. */
  datatype Note =
    | ConnectedNote
    | UnknownCommand(cmd: int)
    | ClosedNote
    | NetworkError
    | NotConnected
    | NoSuchCommand(cmd: int)

  /** An observable effect of a transition, in the order it happens. */
  datatype Effect =
    | SocketConnect(socket: SocketRef, option: ConnectOption)
    | SocketSend(socket: SocketRef, msg: Msg)
    | Invoke(callback: CallbackRef, target: TargetRef, data: Payload)
    | Log(note: Note)

  /** Number of transport connects in an effect trace. */
  function ConnectCalls(effects: seq<Effect>): nat
  {
    if |effects| == 0 then 0
    else (if effects[0].SocketConnect? then 1 else 0) + ConnectCalls(effects[1..])
  }

  /** Counting transport connects distributes over concatenated traces. */
  lemma {:induction false} ConnectCallsAppend(a: seq<Effect>, b: seq<Effect>)
    ensures ConnectCalls(a + b) == ConnectCalls(a) + ConnectCalls(b)
    decreases |a|
  {
    if |a| == 0 {
      assert a + b == b;
    } else {
      assert (a + b)[1..] == a[1..] + b;
      ConnectCallsAppend(a[1..], b);
    }
  }

  /** A trace has no transport connect exactly when none of its effects is one. */
  lemma {:induction false} NoConnectCalls(effects: seq<Effect>)
    ensures ConnectCalls(effects) == 0 <==> forall i :: 0 <= i < |effects| ==> !effects[i].SocketConnect?
    decreases |effects|
  {
    if |effects| > 0 {
      NoConnectCalls(effects[1..]);
      assert forall i :: 1 <= i < |effects| ==> effects[i] == effects[1..][i - 1];
    }
  }
}
